=== FILE: README.md ===
# Ordered-write compression pipeline: a Dafny model

This project models the sequential core of a multithreaded directory compressor. Two C programs
are modelled:

- `src/serial.c`, called *staged* below. Each worker compresses its file into a temp file and
  copies the bytes into the archive.
- `project2/src/serial.c`, called *buffered* below. Each worker compresses one buffer and
  writes an `int` length and then the bytes.

Both programs list the `.txt` files of a directory and sort them with `strcmp`. Workers claim
file indices from a shared counter and compress their files in any order. Each worker waits
until the shared write turn equals its index, then appends its record, adds to the byte
totals, and passes the turn on.

The model has these parts:

- `Names`: `strcmp` as a three-way comparison. It is proved equal to the textbook
  lexicographic order, antisymmetric and transitive.
- `Sorting`: a functional insertion sort. The lemma `SortedUnique` proves that a multiset of
  names has only one sorted arrangement. So the unstable `qsort` always gives the same list.
- `Listing`: the `.txt` filter, `list_txt_files` (the `readdir` loop as a method with loop
  invariants), and project2's inline loop. It proves that both programs choose the same
  files in the same order.
- `FileJob`: what one worker makes of one file. The result is a byte count and a payload, or
  the reason the file failed. zlib is a function parameter.
- `Archive`: the record layouts and the totals. It also has a parser for the length-prefixed
  layout, with a round-trip proof.
- `Pipeline`: the claim counter and the write-turn protocol as a transition system. Threads
  are worker ids on steps. An interleaving is any sequence of enabled steps. Waiting on
  `write_cond` is a `Publish` step that is not enabled yet. The invariant `Inv` holds after
  every step. It gives these results:
  - the output is the records of files 0..k-1 in ascending order with no gaps;
  - the totals are the sums over those files;
  - every index is handed out exactly once;
  - the turn never passes a failed file;
  - every run that ends with at least one thread leaving the claim loop through `break`
    writes the same archive, whatever the worker count or schedule;
  - a run can also end with every thread having failed `deflateInit` (`src/serial.c:124`)
    before claiming anything. It then writes an empty archive and both totals are 0.
- `Context`: `init_context` and `destroy_context`.
- `WorkerCount`: how many threads `spawn_workers` and `compress_directory` start.
- `Compressor`: whole runs of both programs from their inputs.

Three behaviours of the code shape what is proved:

- In the staged program, a file that fails to open, fails to get a temp file, or fails
  during deflate is dropped with `continue`. No failure marker is published and the turn
  does not advance (`src/serial.c:156-161`, `214-220`). The model keeps this. It proves the
  consequence: when a failed file is listed before a good one, no thread ever leaves the
  claim loop through `break` while all others have returned, because the worker holding the
  later index waits forever (`Compressor.SerialUnopenableFileHangs`,
  `Pipeline.FinishOnlyIfFailuresTrail`). The program then ends only if every thread failed
  `deflateInit`, with an empty archive.
- The staged program writes no length prefix. Its records can be told apart only by
  decoding each zlib stream to its end, and that fails after a stream cut short by a read
  error (`src/serial.c:173`), which is published without `Z_FINISH`. The model does not decode
  zlib, so it gives a parser only for the buffered program's `{length, payload}` records.
- The buffered program reads only the first `BUFFER_SIZE` bytes of each file
  (`project2/src/serial.c:63`). Longer files are cut silently. The model keeps this.

The inputs that a real run gets from the system are parameters here:

- directory contents: a sequence of names, or `None` when `opendir` fails;
- what each file yields: whether `fopen` and `tmpfile` succeed, and the bytes read;
- the encoder: a function;
- the thread schedule: the step sequence.

## Model

| member | source | states |
|---|---|---|
| `Names.Compare` | src/serial.c:16-18 | the `strcmp` sign used by `cmp` is -1, 0 or 1, and it is 0 exactly when the two names are identical |
| `Names.CompareIsLexicographic` | project2/src/serial.c:12-14 | `strcmp` says "less" iff the first name is a proper prefix of the second or is smaller at the first differing position |
| `Names.CompareAntisymmetric` | project2/src/serial.c:12-14 | swapping the arguments of `cmp` negates the result |
| `Names.CompareTransitive` | src/serial.c:16-18 | the order `cmp` induces is transitive |
| `Sorting.Insert` | src/serial.c:67-69 | inserting a name into a sorted list keeps it sorted and adds exactly that name |
| `Sorting.Sort` | src/serial.c:66-69 | the sort is ascending under `strcmp` and is a permutation of its input |
| `Sorting.SortedIsFixed` | src/serial.c:67-69 | a sorted list is its own sort, so skipping `qsort` for fewer than two names changes nothing |
| `Sorting.SortedUnique` | project2/src/serial.c:122 | two sorted lists with the same names are equal, so the unstable `qsort` cannot give different lists |
| `Listing.Filter` | src/serial.c:40-64 | each entry is kept, as often as it occurs, iff it passes the test; nothing else is added |
| `Listing.SerialFileList` | src/serial.c:41-69 | the list is sorted; a name is in it iff the directory has it and it is not `.` or `..` and ends in `.txt` (length at least 4), and it occurs as often as in the directory |
| `Listing.ListTxtFiles` | src/serial.c:21-87 | when `opendir` fails the result is -1 with an empty (NULL) list and count 0; otherwise 0, the filtered and sorted list, and its length |
| `Listing.Project2FileList` | project2/src/serial.c:102-122 | no list when `opendir` fails; otherwise the `.txt` names sorted ascending, each as often as in the directory |
| `Listing.DotEntriesFailSuffixTest` | project2/src/serial.c:110-111 | the suffix test alone rejects `.` and `..`, so project2 needs no separate check |
| `Listing.FileListsAgree` | project2/src/serial.c:109-122 | project2's loop and `list_txt_files` produce the same list for every directory |
| `Listing.QsortResultIsListing` | src/serial.c:66-69 | any sorted permutation of the kept names, which is what `qsort` returns, equals the modelled list |
| `Listing.ExampleListing` | src/serial.c:41-69 | entries `b.txt`, `a.txt`, `c.md` are listed as `a.txt`, `b.txt` |
| `Bytes.Le32RoundTrip` | project2/src/serial.c:83 | the 4-byte `int` length prefix reads back as the length written |
| `FileJob.StagedAttempt` | src/serial.c:155-220 | a file that does not open, gets no temp file, hits a deflate error, or has a temp-file write cut short (only when deflate produced bytes) yields a failure with that reason; otherwise `in_bytes` is the number of bytes read and the payload is what deflate put in the temp file |
| `FileJob.BufferedAttempt` | project2/src/serial.c:61-77 | `nbytes` is at most one buffer and is the file length or `BUFFER_SIZE`; `nbytes_zipped` is at most one buffer; the payload is the deflate of the (possibly truncated) input; an unopenable file or an overflowing deflate is an assertion failure |
| `Archive.Record` | project2/src/serial.c:83-84 | a staged record is the payload alone; a buffered record is `Le32` of the payload's length followed by exactly the payload |
| `Archive.AttemptsSnoc` | project2/src/serial.c:85-86 | writing one more file adds its payload as the last record and its byte counts to `total_in` and `total_out` |
| `Archive.JoinLength` | src/serial.c:234-238 | archive length is the sum of payload lengths, plus four bytes per record in the buffered layout |
| `Archive.ParseJoin` | project2/src/serial.c:83-84 | a buffered archive parses back into exactly its payloads, in order |
| `Pipeline.Init` | src/serial.c:341-352 | a run starts with both counters and both totals at 0, an empty output, and every thread not yet started |
| `Pipeline.ClaimStep` | src/serial.c:138-146 | a claim returns `next_index` and raises it by exactly 1; the worker leaves its loop iff the index is at least the file count; no other shared field changes |
| `Pipeline.PublishStep` | src/serial.c:224-250 | publishing the file whose turn it is appends its record at the end of the output, adds its counts to the totals, and raises the turn by exactly 1 |
| `Pipeline.LeaveStep` | src/serial.c:214-220 | a dropped file, or a thread whose `deflateInit` failed, leaves the turn, the totals and the output unchanged |
| `Pipeline.StepPreservesInv` | src/serial.c:136-255 | every enabled claim, publish, skip or setup-failure step keeps the pipeline invariant |
| `Pipeline.RunPreservesInv` | src/serial.c:136-255 | any interleaving of enabled steps keeps the invariant |
| `Pipeline.Reachable` | src/serial.c:136-255 | every state reached from the start of a run, with any worker count, satisfies the invariant: in-order output, distinct held indices, every claimed index held or failed |
| `Pipeline.OrderedOutput` | src/serial.c:224-250 | in every interleaving the output is the records of files 0..k-1 in ascending order with no gaps, where k is the write turn; all those files succeeded, and `total_in` and `total_out` are their sums |
| `Pipeline.FailedIndexNeverPassed` | src/serial.c:156-161 | the write turn never passes the index of a file that failed |
| `Pipeline.BlockedBehindFailure` | src/serial.c:226-228 | a worker holding an index past a failed file can never get its turn |
| `Pipeline.ClaimsConsecutive` | project2/src/serial.c:47-52 | the claims of any interleaving hand out consecutive indices starting at the counter's value, none twice |
| `Pipeline.EachIndexClaimedOnce` | src/serial.c:138-146 | from the start of a run, claim number m gets index m, so each index is handed to exactly one worker |
| `Pipeline.FirstFailure` | src/serial.c:214-220 | the index of the first failed file, or the file count: all files before it succeeded |
| `Pipeline.FirstFailureUnique` | src/serial.c:214-220 | only one index has all successes before it and a failure or the end at it |
| `Pipeline.ReturnedWithoutBreak` | src/serial.c:121-124 | if every thread has returned and none through `break`, nothing was claimed or written, both totals are 0, and with at least one thread the program is the staged one (only it has the early return) |
| `Pipeline.FinishedInv` | src/serial.c:371-376 | once every thread has returned and at least one left through `break`, every file from the turn onwards failed, so the turn stands at the first failure |
| `Pipeline.FinishedTurn` | src/serial.c:371-376 | when every thread has returned and at least one left through `break`, the write turn is the first failure and every file from it to the end failed |
| `Pipeline.FinishedOutput` | src/serial.c:363-377 | a run in which every thread has returned and at least one left through `break` has written exactly the files before the first failure, with matching totals |
| `Pipeline.ScheduleIndependent` | src/serial.c:354-377 | any two runs in which every thread has returned and at least one left through `break`, with any worker counts and interleavings, leave byte-identical archives and equal totals |
| `Pipeline.FinishOnlyIfFailuresTrail` | src/serial.c:218-228 | every thread can have returned with at least one through `break` only if no successful file follows a failed one |
| `Pipeline.OutputLengthMatchesTotals` | src/serial.c:244-245 | `total_out` is the archive size in the staged layout, and the archive size minus 4 bytes per record in the buffered one |
| `Pipeline.BufferedArchiveParses` | project2/src/serial.c:79-89 | a buffered archive always parses into the payloads of files 0..k-1 in order, and `total_out` is the sum of their length prefixes |
| `Pipeline.NoFilesNoRecords` | project2/src/serial.c:141-165 | with no candidate files nothing is written and both totals stay 0 |
| `Context.InitContext` | src/serial.c:89-96 | stores the directory, list, count and output file and resets `next_index`; the write turn and totals keep their old values |
| `Context.DestroyContext` | src/serial.c:98-112 | NULL stays NULL; otherwise the list and output become NULL and the count and `next_index` become 0, and nothing else changes |
| `Context.DestroyIdempotent` | src/serial.c:98-112 | destroying a destroyed context changes nothing |
| `Context.InitAfterDestroy` | src/serial.c:89-112 | initialising after destruction gives the same record as initialising without it |
| `WorkerCount.SpawnWorkerCount` | src/serial.c:266-290 | with no context or no files, no thread is made; otherwise the count is the least of the request (or the file count if the request is not positive), the file count and the cap `MAX_WORKER_THREADS` (19 in project2), so it lies in [1, min(files, cap)] |
| `WorkerCount.DirectoryWorkerCount` | project2/src/serial.c:141-144 | with files, the count is min(files, 19) and at least 1; with none, no worker runs |
| `WorkerCount.DirectoryCountIsDefaultSpawnCount` | src/serial.c:354-357 | the count `compress_directory` uses equals what `spawn_workers` picks for a request of 0 |
| `Compressor.StagedConfig` | src/serial.c:341-370 | file i of the staged run has the outcome of processing source i |
| `Compressor.BufferedConfig` | project2/src/serial.c:128-157 | file i of the buffered run has the outcome of processing file i |
| `Compressor.Project2ArchiveComplete` | project2/src/serial.c:141-165 | if every file opens and fits, a run in which every thread has returned (there is no setup failure in project2) leaves one record per file in list order, record i holding file i's compressed first buffer, and totals matching the inputs and record lengths |
| `Compressor.SerialArchiveComplete` | src/serial.c:354-378 | if every file succeeds and every thread has returned: with a thread through `break`, all compressed streams are back to back in list order and `total_out` is the archive size; with every thread failed at `deflateInit`, the archive is empty and both totals are 0 |
| `Compressor.SerialUnopenableFileHangs` | src/serial.c:156-157 | an unopenable file listed before a good file means no interleaving, with any number of workers, ends with a thread through `break`; if every thread has returned, nothing was claimed and the archive is empty with both totals 0 |

## Left out

- Threads, mutexes and condition variables are not modelled as such. Each critical section is
  one step, and a `pthread_cond_wait` is a publish step that is not yet enabled. Liveness is
  not proved. With the staged skip path it does not hold.
- zlib (`deflateInit`, `deflateReset`, `deflate`, `deflateEnd`) is a foreign library. The
  encoder is a function parameter, and the chunked read/deflate loop of `src/serial.c:168-216`
  is taken as one call on the bytes read.
- File I/O (`opendir`/`readdir`, `fopen`/`fread`/`fwrite`, `tmpfile`, `rewind`, `fflush`,
  `setvbuf`) is replaced by given sequences.
- Memory management is left out: `malloc`/`realloc`/`strdup`/`free`, the `assert`s on
  allocation, and `snprintf` path building with its 4096-byte buffer. A failed allocation
  aborts the process.
- The floating-point compression ratio and its `%.2lf` printing are left out.
- `list_txt_files` also accepts NULL `out_files` and `out_n` pointers. It then frees the list
  or skips the store. This is memory handling and is not modelled.
- `spawn_workers` has a `pthread_create` failure path that returns -1; thread creation is not
  modelled. It also passes the context where `compression_worker` expects a `worker_state_t`.
  Only its thread count is modelled (`WorkerCount.SpawnWorkerCount`).
- `WorkerCount.SpawnWorkerCount`: `src/serial.c` uses `MAX_WORKER_THREADS` and
  `worker_state_t` without defining them, and `src/serial.h` does not define them either. The
  header that does is not part of this model. The model uses project2's value 19
  (`project2/src/serial.c:10`) for both programs.
- `src/serial.h` is not part of this model. It only has declarations, and its
  `compression_context_t` lacks fields that `src/serial.c` uses.
- `Pipeline.Enabled`: a failing `assert` in project2's worker aborts the whole process. The
  model only stops that one worker and lets the others go on. This adds interleavings, so the
  safety facts still cover every real run. They describe the bytes passed to `fwrite`, not the
  file left on disk: `abort()` does not flush stdio, so after an abort the fully buffered
  archive (`project2/src/serial.c:126`) holds only what was already flushed, and it may end
  inside a record.
- `Bytes.Le32`: the `int` length prefix is written in the machine's byte order. The model fixes
  it as little-endian.
- `Names.Compare`: `strcmp` compares `unsigned char` bytes. The model compares characters by
  code point. The two agree on byte strings. A `Name` never contains NUL, because a C string
  ends at its first NUL, so `Compare` never has to stop early the way `strcmp` does.
- The C `int` counters (`next_index`, `next_write_index`) and the `long long` totals are
  unbounded integers. Every worker's last claim still runs `next_index++`
  (`src/serial.c:141`), so the counter reaches the file count plus the worker count.
  Overflow therefore cannot happen with fewer than 2^31 - 19 files and 2^63 bytes (taking the
  cap as 19, see `WorkerCount.SpawnWorkerCount` below).

=== FILE: archive.dfy ===
/** The archive `text.tzip`: one record per published file, in publishing order. */
module Archive {
  import opened Wrappers
  import opened Bytes
  import opened FileJob

  /** The two programs lay records out differently. src/serial.c copies the compressed bytes
      from its temp file with nothing in front (`Staged`); project2 writes the compressed length
      as an `int` and then the compressed bytes (`Buffered`). */
  datatype Variant = Staged | Buffered

  /** The bytes one publish appends to the archive. */
  function Record(variant: Variant, payload: seq<byte>): (r: seq<byte>)
    ensures variant == Staged ==> r == payload
    ensures variant == Buffered ==> |r| == 4 + |payload| && r[..4] == Le32(|payload|) && r[4..] == payload
  {
    match variant
    case Staged => payload
    case Buffered => Le32(|payload|) + payload
  }

  ghost predicate AllReady(attempts: seq<Attempt>) {
    forall i :: 0 <= i < |attempts| ==> attempts[i].Ready?
  }

  /** The compressed payloads of successfully processed files, file by file. */
  function Payloads(attempts: seq<Attempt>): (r: seq<seq<byte>>)
    requires AllReady(attempts)
    ensures |r| == |attempts|
    ensures forall i :: 0 <= i < |attempts| ==> r[i] == attempts[i].payload
  {
    seq(|attempts|, i requires 0 <= i < |attempts| => attempts[i].payload)
  }

  /** The records of `payloads`, one after another. */
  function Join(variant: Variant, payloads: seq<seq<byte>>): seq<byte>
  {
    if |payloads| == 0 then []
    else Join(variant, payloads[..|payloads| - 1]) + Record(variant, payloads[|payloads| - 1])
  }

  function SumLengths(payloads: seq<seq<byte>>): nat
  {
    if |payloads| == 0 then 0
    else SumLengths(payloads[..|payloads| - 1]) + |payloads[|payloads| - 1]|
  }

  /** Sum of the raw byte counts of the processed files. */
  function TotalIn(attempts: seq<Attempt>): nat
    requires AllReady(attempts)
  {
    if |attempts| == 0 then 0
    else TotalIn(attempts[..|attempts| - 1]) + attempts[|attempts| - 1].inBytes
  }

  /** Sum of the compressed byte counts of the processed files. */
  function TotalOut(attempts: seq<Attempt>): nat
    requires AllReady(attempts)
  {
    SumLengths(Payloads(attempts))
  }

  /** Appending one more payload appends exactly its record. */
  lemma JoinSnoc(variant: Variant, payloads: seq<seq<byte>>, p: seq<byte>)
    ensures Join(variant, payloads + [p]) == Join(variant, payloads) + Record(variant, p)
    ensures SumLengths(payloads + [p]) == SumLengths(payloads) + |p|
  {
    assert (payloads + [p])[..|payloads|] == payloads;
  }

  /** Processing one more successful file extends the payloads and the totals by that file. */
  lemma AttemptsSnoc(attempts: seq<Attempt>, a: Attempt)
    requires AllReady(attempts) && a.Ready?
    ensures AllReady(attempts + [a])
    ensures Payloads(attempts + [a]) == Payloads(attempts) + [a.payload]
    ensures TotalIn(attempts + [a]) == TotalIn(attempts) + a.inBytes
    ensures TotalOut(attempts + [a]) == TotalOut(attempts) + |a.payload|
  {
    var b := attempts + [a];
    assert b[..|attempts|] == attempts;
    assert Payloads(b) == Payloads(attempts) + [a.payload];
    JoinSnoc(Staged, Payloads(attempts), a.payload);
  }

  /** Records can also be peeled off the front. */
  lemma {:induction false} JoinCons(variant: Variant, p: seq<byte>, payloads: seq<seq<byte>>)
    ensures Join(variant, [p] + payloads) == Record(variant, p) + Join(variant, payloads)
    decreases |payloads|
  {
    if |payloads| == 0 {
      assert [p] + payloads == [p];
      assert [p][..0] == [];
    } else {
      var init, last := payloads[..|payloads| - 1], payloads[|payloads| - 1];
      var front := [p] + init;
      var rp, ji, rl := Record(variant, p), Join(variant, init), Record(variant, last);
      assert payloads == init + [last];
      assert [p] + payloads == front + [last];
      calc {
        Join(variant, [p] + payloads);
        Join(variant, front + [last]);
        { JoinSnoc(variant, front, last); }
        Join(variant, front) + rl;
        { JoinCons(variant, p, init); }
        (rp + ji) + rl;
        rp + (ji + rl);
        { JoinSnoc(variant, init, last); }
        rp + Join(variant, payloads);
      }
    }
  }

  /** The archive's byte length: the payloads plus, in the buffered layout, four bytes per
      record. */
  lemma {:induction false} JoinLength(variant: Variant, payloads: seq<seq<byte>>)
    ensures |Join(variant, payloads)| == SumLengths(payloads) + if variant == Buffered then 4 * |payloads| else 0
    decreases |payloads|
  {
    if |payloads| > 0 {
      JoinLength(variant, payloads[..|payloads| - 1]);
    }
  }

  /** Reads a buffered-layout archive back into its payloads: a 4-byte length, that many bytes,
      and so on to the end; `None` when the bytes are not such a sequence of records. */
  function Parse(bytes: seq<byte>): Option<seq<seq<byte>>>
    decreases |bytes|
  {
    if |bytes| == 0 then Some([])
    else if |bytes| < 4 then None
    else
      var n := Le32Value(bytes[..4]);
      if n > |bytes| - 4 then None
      else
        match Parse(bytes[4 + n..])
        case None => None
        case Some(rest) => Some([bytes[4..4 + n]] + rest)
  }

  /** Every buffered-layout archive of payloads shorter than 2^32 bytes reads back as exactly
      those payloads, in order: the length prefixes delimit the records. */
  lemma {:induction false} ParseJoin(payloads: seq<seq<byte>>)
    requires forall i :: 0 <= i < |payloads| ==> |payloads[i]| < WORD
    ensures Parse(Join(Buffered, payloads)) == Some(payloads)
    decreases |payloads|
  {
    if |payloads| > 0 {
      var p, rest := payloads[0], payloads[1..];
      assert payloads == [p] + rest;
      JoinCons(Buffered, p, rest);
      var b := Join(Buffered, payloads);
      assert b == Le32(|p|) + p + Join(Buffered, rest);
      assert b[..4] == Le32(|p|);
      Le32RoundTrip(|p|);
      assert b[4..4 + |p|] == p;
      assert b[4 + |p|..] == Join(Buffered, rest);
      ParseJoin(rest);
    }
  }
}

=== FILE: bytes.dfy ===
/** Bytes and the 4-byte integer prefix that `fwrite(&n, sizeof(int), 1, f)` puts in the archive. */
module Bytes {

  type byte = x: int | 0 <= x < 256

  /** Number of distinct values of a 32-bit word. */
  const WORD: nat := 0x1_0000_0000

  /** The bytes of `n` in little-endian order, as a 32-bit `int` is laid out on the targets the
      program is built for; values of 2^32 or more are reduced modulo 2^32. */
  function Le32(n: nat): (r: seq<byte>)
    ensures |r| == 4
  {
    [n % 256, (n / 256) % 256, (n / 256 / 256) % 256, (n / 256 / 256 / 256) % 256]
  }

  /** Reads a 4-byte little-endian unsigned word. */
  function Le32Value(b: seq<byte>): (r: nat)
    requires |b| == 4
    ensures r < WORD
  {
    var b0, b1, b2, b3 := b[0] as int, b[1] as int, b[2] as int, b[3] as int;
    b0 + 256 * (b1 + 256 * (b2 + 256 * b3))
  }

  /** Reading back a written prefix gives the original length. */
  lemma Le32RoundTrip(n: nat)
    requires n < WORD
    ensures Le32Value(Le32(n)) == n
  {
    var q1 := n / 256;
    var q2 := q1 / 256;
    var q3 := q2 / 256;
    assert q3 < 256;
    assert q2 == q2 % 256 + 256 * q3;
    assert q1 == q1 % 256 + 256 * q2;
    assert n == n % 256 + 256 * q1;
  }
}

=== FILE: compressor.dfy ===
/** Whole runs of `compress_directory`: the listed files' outcomes feed the pipeline, started with
    the worker count the program chooses. */
module Compressor {
  import opened Bytes
  import opened FileJob
  import opened Archive
  import opened Pipeline
  import opened WorkerCount

  /** The run src/serial.c sets up for files with the given sources. */
  function StagedConfig(sources: seq<Source>, deflate: (seq<byte>, bool) -> Deflated): (cfg: Config)
    ensures cfg.variant == Staged && |cfg.attempts| == |sources|
    ensures forall i :: 0 <= i < |sources| ==> cfg.attempts[i] == StagedAttempt(sources[i], deflate)
  {
    Config(Staged, seq(|sources|, i requires 0 <= i < |sources| => StagedAttempt(sources[i], deflate)))
  }

  /** A listed file as project2 meets it: whether `fopen` succeeds, and its bytes. */
  datatype InputFile = InputFile(opens: bool, content: seq<byte>)

  /** The run project2 sets up for the given files. */
  function BufferedConfig(files: seq<InputFile>, deflate: seq<byte> -> seq<byte>): (cfg: Config)
    ensures cfg.variant == Buffered && |cfg.attempts| == |files|
    ensures forall i :: 0 <= i < |files| ==> cfg.attempts[i] == BufferedAttempt(files[i].opens, files[i].content, deflate)
  {
    Config(Buffered, seq(|files|, i requires 0 <= i < |files| => BufferedAttempt(files[i].opens, files[i].content, deflate)))
  }

  /** The property `Project2ArchiveComplete` promises about a buffered run's end state. */
  ghost predicate CompleteArchive(files: seq<InputFile>, deflate: seq<byte> -> seq<byte>, t: State) {
    && (forall i :: 0 <= i < |files| ==> BufferedAttempt(files[i].opens, files[i].content, deflate).Ready?)
    && Parse(t.output).Some?
    && |Parse(t.output).value| == |files|
    && (forall i :: 0 <= i < |files| ==>
          Parse(t.output).value[i] == BufferedAttempt(files[i].opens, files[i].content, deflate).payload)
    && t.totalIn == TotalIn(BufferedConfig(files, deflate).attempts)
    && t.totalOut == SumLengths(Parse(t.output).value)
  }

  lemma Project2AllWritten(files: seq<InputFile>, deflate: seq<byte> -> seq<byte>, steps: seq<Step>)
    requires forall i :: 0 <= i < |files| ==> BufferedAttempt(files[i].opens, files[i].content, deflate).Ready?
    requires var r := Run(BufferedConfig(files, deflate), Init(DirectoryWorkerCount(|files|)), steps);
      r.Some? && Finished(r.value)
    ensures var t := Run(BufferedConfig(files, deflate), Init(DirectoryWorkerCount(|files|)), steps).value;
      t.nextWriteIndex == |files| && t.totalIn == TotalIn(BufferedConfig(files, deflate).attempts)
  {
    var cfg := BufferedConfig(files, deflate);
    FinishedOutput(cfg, DirectoryWorkerCount(|files|), steps);
    FirstFailureUnique(cfg.attempts, |files|);
    assert cfg.attempts[..|files|] == cfg.attempts;
  }

  lemma Project2Parses(files: seq<InputFile>, deflate: seq<byte> -> seq<byte>, steps: seq<Step>)
    requires forall i :: 0 <= i < |files| ==> BufferedAttempt(files[i].opens, files[i].content, deflate).Ready?
    requires var r := Run(BufferedConfig(files, deflate), Init(DirectoryWorkerCount(|files|)), steps);
      r.Some? && r.value.nextWriteIndex == |files|
    ensures var t := Run(BufferedConfig(files, deflate), Init(DirectoryWorkerCount(|files|)), steps).value;
      && Parse(t.output).Some?
      && |Parse(t.output).value| == |files|
      && (forall i :: 0 <= i < |files| ==>
            Parse(t.output).value[i] == BufferedAttempt(files[i].opens, files[i].content, deflate).payload)
      && t.totalOut == SumLengths(Parse(t.output).value)
  {
    var cfg := BufferedConfig(files, deflate);
    forall i | 0 <= i < |cfg.attempts| && cfg.attempts[i].Ready?
      ensures |cfg.attempts[i].payload| <= BUFFER_SIZE
    {
      assert cfg.attempts[i] == BufferedAttempt(files[i].opens, files[i].content, deflate);
    }
    BufferedArchiveParses(cfg, DirectoryWorkerCount(|files|), steps);
  }

  lemma Project2ThroughBreak(files: seq<InputFile>, deflate: seq<byte> -> seq<byte>, steps: seq<Step>)
    requires forall i :: 0 <= i < |files| ==> BufferedAttempt(files[i].opens, files[i].content, deflate).Ready?
    requires var r := Run(BufferedConfig(files, deflate), Init(DirectoryWorkerCount(|files|)), steps);
      r.Some? && Finished(r.value)
    ensures CompleteArchive(files, deflate, Run(BufferedConfig(files, deflate), Init(DirectoryWorkerCount(|files|)), steps).value)
  {
    Project2AllWritten(files, deflate, steps);
    Project2Parses(files, deflate, steps);
  }

  lemma Project2WithoutBreak(files: seq<InputFile>, deflate: seq<byte> -> seq<byte>, steps: seq<Step>)
    requires forall i :: 0 <= i < |files| ==> BufferedAttempt(files[i].opens, files[i].content, deflate).Ready?
    requires var r := Run(BufferedConfig(files, deflate), Init(DirectoryWorkerCount(|files|)), steps);
      r.Some? && Returned(r.value) && Exited !in r.value.workers
    ensures CompleteArchive(files, deflate, Run(BufferedConfig(files, deflate), Init(DirectoryWorkerCount(|files|)), steps).value)
  {
    var cfg := BufferedConfig(files, deflate);
    var count := DirectoryWorkerCount(|files|);
    var t := Run(cfg, Init(count), steps).value;
    ReturnedWithoutBreak(cfg, count, steps);
    assert |files| == 0;
  }

  /** project2 end to end: when every file opens and its compressed form fits one buffer, any
      run with the chosen worker count in which every thread has returned leaves an archive of
      exactly one record per file, in list order, record i holding the compressed first buffer
      of file i; `total_in` counts those (possibly truncated) inputs and `total_out` the record
      lengths. project2 has no setup failure, so such a run always went through `break`, or
      had no files and no threads. */
  lemma Project2ArchiveComplete(files: seq<InputFile>, deflate: seq<byte> -> seq<byte>, steps: seq<Step>)
    requires forall i :: 0 <= i < |files| ==> BufferedAttempt(files[i].opens, files[i].content, deflate).Ready?
    requires var cfg := BufferedConfig(files, deflate);
      var r := Run(cfg, Init(DirectoryWorkerCount(|files|)), steps);
      r.Some? && Returned(r.value)
    ensures var t := Run(BufferedConfig(files, deflate), Init(DirectoryWorkerCount(|files|)), steps).value;
      && Parse(t.output).Some?
      && |Parse(t.output).value| == |files|
      && (forall i :: 0 <= i < |files| ==>
            Parse(t.output).value[i] == BufferedAttempt(files[i].opens, files[i].content, deflate).payload)
      && t.totalIn == TotalIn(BufferedConfig(files, deflate).attempts)
      && t.totalOut == SumLengths(Parse(t.output).value)
  {
    var t := Run(BufferedConfig(files, deflate), Init(DirectoryWorkerCount(|files|)), steps).value;
    if Exited in t.workers {
      Project2ThroughBreak(files, deflate, steps);
    } else {
      Project2WithoutBreak(files, deflate, steps);
    }
    assert CompleteArchive(files, deflate, t);
  }

  /** src/serial.c end to end: when every file succeeds, a run in which every thread has
      returned either went through `break`, and then left the compressed streams of all files
      back to back, in list order, with `total_out` the archive size; or every thread failed
      `deflateInit`, and then the archive is empty and both totals are 0. */
  lemma SerialArchiveComplete(sources: seq<Source>, deflate: (seq<byte>, bool) -> Deflated, steps: seq<Step>)
    requires forall i :: 0 <= i < |sources| ==> StagedAttempt(sources[i], deflate).Ready?
    requires var cfg := StagedConfig(sources, deflate);
      var r := Run(cfg, Init(DirectoryWorkerCount(|sources|)), steps);
      r.Some? && Returned(r.value)
    ensures var cfg := StagedConfig(sources, deflate);
      var t := Run(cfg, Init(DirectoryWorkerCount(|sources|)), steps).value;
      Exited in t.workers ==>
        && t.nextWriteIndex == |sources|
        && t.output == Join(Staged, Payloads(cfg.attempts))
        && t.totalOut == |t.output|
        && t.totalIn == TotalIn(cfg.attempts)
    ensures var t := Run(StagedConfig(sources, deflate), Init(DirectoryWorkerCount(|sources|)), steps).value;
      Exited !in t.workers ==> t.output == [] && t.totalIn == 0 && t.totalOut == 0
  {
    var cfg := StagedConfig(sources, deflate);
    var count := DirectoryWorkerCount(|sources|);
    var t := Run(cfg, Init(count), steps).value;
    if Exited in t.workers {
      FinishedOutput(cfg, count, steps);
      FirstFailureUnique(cfg.attempts, |sources|);
      OutputLengthMatchesTotals(cfg, count, steps);
      assert cfg.attempts[..|sources|] == cfg.attempts;
    } else {
      ReturnedWithoutBreak(cfg, count, steps);
    }
  }

  /** src/serial.c: one file that cannot be opened, listed before a file that can be processed,
      keeps every interleaving of any number of workers from finishing through `break`. The
      program can then end only when every thread failed `deflateInit` before claiming a file,
      and then it writes an empty archive. */
  lemma SerialUnopenableFileHangs(sources: seq<Source>, deflate: (seq<byte>, bool) -> Deflated,
                                  j: nat, m: nat, workerCount: nat, steps: seq<Step>)
    requires j < m < |sources|
    requires !sources[j].opens
    requires StagedAttempt(sources[m], deflate).Ready?
    requires Run(StagedConfig(sources, deflate), Init(workerCount), steps).Some?
    ensures !Finished(Run(StagedConfig(sources, deflate), Init(workerCount), steps).value)
    ensures var t := Run(StagedConfig(sources, deflate), Init(workerCount), steps).value;
      Returned(t) ==> t.nextIndex == 0 && t.output == [] && t.totalIn == 0 && t.totalOut == 0
  {
    var cfg := StagedConfig(sources, deflate);
    var t := Run(cfg, Init(workerCount), steps).value;
    if Finished(t) {
      FinishOnlyIfFailuresTrail(cfg, workerCount, steps, j, m);
    }
    if Returned(t) && !Finished(t) {
      ReturnedWithoutBreak(cfg, workerCount, steps);
    }
  }
}

=== FILE: context.dfy ===
/** The src/serial.c `compression_context_t` record and its two lifecycle operations. Pointers
    that may be NULL are `Option`s; the lock and condition-variable fields carry no data and are
    not represented. */
module Context {
  import opened Wrappers
  import opened Names

  /** An open `FILE *`. */
  datatype FileHandle = FileHandle(id: nat)

  datatype Ctx = Ctx(
    directory: Option<Name>,
    files: Option<seq<Name>>,
    fileCount: int,
    nextIndex: int,
    nextWriteIndex: int,
    output: Option<FileHandle>,
    totalIn: int,
    totalOut: int)

  /** `init_context(ctx, dir, files, n, f_out)`: stores the four arguments and resets the claim
      counter. It does not touch the write turn or the totals; those keep whatever values they
      had. (The C code asserts that `ctx` is not NULL, so the record is always present.) */
  function InitContext(ctx: Ctx, dir: Option<Name>, files: Option<seq<Name>>, n: int, out: Option<FileHandle>): (r: Ctx)
    ensures r.directory == dir && r.files == files && r.fileCount == n && r.output == out
    ensures r.nextIndex == 0
    ensures r.nextWriteIndex == ctx.nextWriteIndex
    ensures r.totalIn == ctx.totalIn && r.totalOut == ctx.totalOut
  {
    ctx.(directory := dir, files := files, fileCount := n, nextIndex := 0, output := out)
  }

  /** `destroy_context(ctx)`: NULL is left alone; otherwise the file list is released and the
      list, count, claim counter and output handle are cleared, while the directory name, the
      write turn and the totals stay as they were. */
  function DestroyContext(ctx: Option<Ctx>): (r: Option<Ctx>)
    ensures ctx.None? ==> r.None?
    ensures ctx.Some? ==> r.Some?
    ensures ctx.Some? ==> r.value.files.None? && r.value.fileCount == 0 && r.value.nextIndex == 0 && r.value.output.None?
    ensures ctx.Some? ==> r.value.directory == ctx.value.directory && r.value.nextWriteIndex == ctx.value.nextWriteIndex
    ensures ctx.Some? ==> r.value.totalIn == ctx.value.totalIn && r.value.totalOut == ctx.value.totalOut
  {
    match ctx
    case None => None
    case Some(c) => Some(c.(files := None, fileCount := 0, nextIndex := 0, output := None))
  }

  /** Destroying twice is the same as destroying once. */
  lemma DestroyIdempotent(ctx: Option<Ctx>)
    ensures DestroyContext(DestroyContext(ctx)) == DestroyContext(ctx)
  {
  }

  /** Initialising a destroyed context gives the same record as initialising the original one:
      destruction leaves nothing behind that initialisation depends on. */
  lemma InitAfterDestroy(ctx: Ctx, dir: Option<Name>, files: Option<seq<Name>>, n: int, out: Option<FileHandle>)
    ensures InitContext(DestroyContext(Some(ctx)).value, dir, files, n, out) == InitContext(ctx, dir, files, n, out)
  {
  }
}

=== FILE: filejob.dfy ===
/** What one worker makes of one claimed file, before it waits for its turn to write. zlib is a
    foreign library, so the encoder is a parameter: a function from the bytes fed to it to the
    bytes it emits. */
module FileJob {
  import opened Bytes

  /** Size of each worker's input and output buffer (1 MiB). */
  const BUFFER_SIZE: nat := 1048576

  datatype Failure =
    | OpenFailed       // fopen returned NULL
    | TmpFileFailed    // tmpfile returned NULL
    | DeflateFailed    // deflate reported Z_STREAM_ERROR
    | WriteFailed      // a write of compressed bytes to the temp file came up short
    | AssertionFailed  // an assert in project2's worker fires and aborts the process

  /** The outcome of processing one file: the byte counts and payload to publish, or a failure. */
  datatype Attempt = Ready(inBytes: nat, payload: seq<byte>) | Failed(reason: Failure)

  /** What the src/serial.c encoder loop produces from the bytes it fed to deflate: the bytes
      written to the temp file, or a stream error. */
  datatype Deflated = Produced(bytes: seq<byte>) | StreamError

  /** One input file as the src/serial.c worker meets it: whether `fopen` and `tmpfile` succeed,
      the bytes `fread` delivers before end of file or a read error, whether a read error
      ended the reading, and whether the file system cuts short a write to the temp file. */
  datatype Source = Source(opens: bool, tmpFile: bool, data: seq<byte>, readError: bool, tmpWriteShort: bool)

  /** The src/serial.c worker body for one file, up to the point where it takes the write lock.
      The encoder's second argument says whether the stream is closed with Z_FINISH; it is not
      when a read error ends the read loop early. */
  function StagedAttempt(src: Source, deflate: (seq<byte>, bool) -> Deflated): (r: Attempt)
    ensures r.Ready? <==> && src.opens && src.tmpFile && deflate(src.data, !src.readError).Produced?
                          && !(src.tmpWriteShort && |deflate(src.data, !src.readError).bytes| > 0)
    ensures !src.opens ==> r == Failed(OpenFailed)
    ensures src.opens && !src.tmpFile ==> r == Failed(TmpFileFailed)
    ensures src.opens && src.tmpFile && deflate(src.data, !src.readError).StreamError? ==> r == Failed(DeflateFailed)
    ensures r == Failed(WriteFailed) <==> && src.opens && src.tmpFile && deflate(src.data, !src.readError).Produced?
                                          && src.tmpWriteShort && |deflate(src.data, !src.readError).bytes| > 0
    ensures r.Ready? ==> r.inBytes == |src.data| && r.payload == deflate(src.data, !src.readError).bytes
  {
    if !src.opens then Failed(OpenFailed)
    else if !src.tmpFile then Failed(TmpFileFailed)
    else
      match deflate(src.data, !src.readError)
      case StreamError => Failed(DeflateFailed)
      case Produced(bytes) =>
        // `fwrite` runs only when deflate produced bytes
        if src.tmpWriteShort && |bytes| > 0 then Failed(WriteFailed) else Ready(|src.data|, bytes)
  }

  /** The project2 worker body for one file: a single `fread` of at most one buffer and a single
      `deflate(strm, Z_FINISH)` into one buffer; `deflate` here is the whole compressed stream
      for the given bytes. A file that does not open, or whose compressed form does not fit the
      output buffer (so `deflate` does not return Z_STREAM_END), trips an assert. */
  function BufferedAttempt(opens: bool, content: seq<byte>, deflate: seq<byte> -> seq<byte>): (r: Attempt)
    ensures r.Ready? ==> r.inBytes <= BUFFER_SIZE && |r.payload| <= BUFFER_SIZE
    ensures r.Ready? ==> r.inBytes <= |content| && (r.inBytes == |content| || r.inBytes == BUFFER_SIZE)
    ensures r.Ready? ==> r.payload == deflate(content[..r.inBytes])
    ensures r.Ready? <==> opens && |deflate(content[..if |content| < BUFFER_SIZE then |content| else BUFFER_SIZE])| <= BUFFER_SIZE
    ensures r.Failed? ==> r.reason == AssertionFailed
  {
    if !opens then Failed(AssertionFailed)
    else
      var nbytes := if |content| < BUFFER_SIZE then |content| else BUFFER_SIZE;
      var zipped := deflate(content[..nbytes]);
      if |zipped| > BUFFER_SIZE then Failed(AssertionFailed)
      else Ready(nbytes, zipped)
  }
}

=== FILE: listing.dfy ===
/** Choosing the candidate files: the directory entries whose name ends in ".txt", sorted by
    `strcmp`. Covers `list_txt_files` of src/serial.c and the inline loop of project2's
    `compress_directory`. A directory is given as the sequence of names `readdir` returns, or
    `None` when `opendir` fails. */
module Listing {
  import opened Wrappers
  import opened Names
  import opened Sorting

  /** The name is at least four characters long and its last four are '.', 't', 'x', 't'. */
  predicate HasTxtSuffix(name: Name) {
    var n := |name|;
    n >= 4 && name[n - 4] == '.' && name[n - 3] == 't' && name[n - 2] == 'x' && name[n - 1] == 't'
  }

  /** The self and parent pseudo-entries. */
  predicate IsDotEntry(name: Name) {
    name == "." || name == ".."
  }

  /** The test `list_txt_files` applies to each entry. */
  predicate KeptBySerial(name: Name) {
    !IsDotEntry(name) && HasTxtSuffix(name)
  }

  /** The entries satisfying `keep`, in directory order. */
  function Filter(entries: seq<Name>, keep: Name -> bool): (r: seq<Name>)
    ensures forall x :: multiset(r)[x] == if keep(x) then multiset(entries)[x] else 0
  {
    if |entries| == 0 then []
    else
      var last := entries[|entries| - 1];
      assert entries == entries[..|entries| - 1] + [last];
      Filter(entries[..|entries| - 1], keep) + if keep(last) then [last] else []
  }

  /** Filtering one more entry extends the filtered prefix by at most that entry. */
  lemma FilterStep(entries: seq<Name>, k: nat, keep: Name -> bool)
    requires k < |entries|
    ensures Filter(entries[..k + 1], keep)
         == Filter(entries[..k], keep) + if keep(entries[k]) then [entries[k]] else []
  {
    assert entries[..k + 1][..k] == entries[..k];
  }

  /** The list `list_txt_files` returns for a directory that opens: the kept names, each as often
      as the directory lists it, in ascending `strcmp` order. */
  function SerialFileList(entries: seq<Name>): (r: seq<Name>)
    ensures Sorted(r)
    ensures forall x :: x in r <==> x in entries && KeptBySerial(x)
    ensures forall x :: multiset(r)[x] == if KeptBySerial(x) then multiset(entries)[x] else 0
  {
    Sort(Filter(entries, KeptBySerial))
  }

  /** `list_txt_files(dir, &files, &n)`: the status it returns with the array and count it stores.
      A NULL array and an empty one are both the empty sequence. */
  method ListTxtFiles(dir: Option<seq<Name>>) returns (status: int, files: seq<Name>, count: int)
    ensures dir.None? ==> status == -1 && files == [] && count == 0
    ensures dir.Some? ==> status == 0 && files == SerialFileList(dir.value) && count == |files|
  {
    if dir.None? {
      return -1, [], 0;
    }
    var entries := dir.value;
    var names: seq<Name> := [];
    var k := 0;
    while k < |entries|
      invariant 0 <= k <= |entries|
      invariant names == Filter(entries[..k], KeptBySerial)
    {
      var name := entries[k];
      FilterStep(entries, k, KeptBySerial);
      if name == "." || name == ".." {
        k := k + 1;
        continue;
      }
      var n := |name|;
      if n >= 4 && name[n - 4] == '.' && name[n - 3] == 't' && name[n - 2] == 'x' && name[n - 1] == 't' {
        names := names + [name];
      }
      k := k + 1;
    }
    assert entries[..k] == entries;
    if |names| > 1 {
      files := Sort(names);
    } else {
      files := names;
      SortedIsFixed(names);
    }
    count := |files|;
    status := 0;
  }

  /** The file list project2's `compress_directory` builds, or `None` when `opendir` fails (it
      then reports the error and returns without writing an archive). */
  function Project2FileList(dir: Option<seq<Name>>): (r: Option<seq<Name>>)
    ensures r.None? <==> dir.None?
    ensures r.Some? ==> Sorted(r.value)
    ensures r.Some? ==> forall x :: multiset(r.value)[x] == if HasTxtSuffix(x) then multiset(dir.value)[x] else 0
  {
    match dir
    case None => None
    case Some(entries) => Some(Sort(Filter(entries, HasTxtSuffix)))
  }

  /** project2 does not test for "." and "..": they are shorter than four characters, so the
      suffix test alone already drops them. */
  lemma DotEntriesFailSuffixTest(name: Name)
    ensures KeptBySerial(name) <==> HasTxtSuffix(name)
  {
  }

  /** Both programs archive the same files in the same order. */
  lemma FileListsAgree(entries: seq<Name>)
    ensures Project2FileList(Some(entries)) == Some(SerialFileList(entries))
  {
    var p := Project2FileList(Some(entries)).value;
    var q := SerialFileList(entries);
    forall x
      ensures multiset(p)[x] == multiset(q)[x]
    {
      DotEntriesFailSuffixTest(x);
    }
    assert multiset(p) == multiset(q);
    SortedUnique(p, q);
  }

  /** Any sorted arrangement of the kept names, such as the one `qsort` leaves behind, is the
      listing. */
  lemma QsortResultIsListing(entries: seq<Name>, sorted: seq<Name>)
    requires Sorted(sorted)
    requires multiset(sorted) == multiset(Filter(entries, KeptBySerial))
    ensures sorted == SerialFileList(entries)
  {
    SortedUnique(sorted, SerialFileList(entries));
  }

  /** The example directory: "b.txt", "a.txt", "c.md", filtered one entry at a time. */
  const B_TXT: Name := "b.txt"
  const A_TXT: Name := "a.txt"
  const C_MD: Name := "c.md"

  lemma ExampleFilterFirst()
    ensures Filter([B_TXT], KeptBySerial) == [B_TXT]
  {
    var entries := [B_TXT];
    assert entries[..0] == [];
    assert KeptBySerial(B_TXT);
  }

  lemma ExampleFilterSecond()
    ensures Filter([B_TXT, A_TXT], KeptBySerial) == [B_TXT, A_TXT]
  {
    var entries := [B_TXT, A_TXT];
    assert entries[..1] == [B_TXT];
    ExampleFilterFirst();
    assert KeptBySerial(A_TXT);
  }

  lemma ExampleFilterAll()
    ensures Filter([B_TXT, A_TXT, C_MD], KeptBySerial) == [B_TXT, A_TXT]
  {
    var entries := [B_TXT, A_TXT, C_MD];
    assert entries[..2] == [B_TXT, A_TXT];
    ExampleFilterSecond();
    assert !KeptBySerial(C_MD);
  }

  lemma ExampleSorted()
    ensures Sorted([A_TXT, B_TXT])
  {
    var sorted := [A_TXT, B_TXT];
    assert Compare(sorted[0], sorted[1]) < 0;
  }

  lemma ExampleSameNames()
    ensures multiset([A_TXT, B_TXT]) == multiset(Filter([B_TXT, A_TXT, C_MD], KeptBySerial))
  {
    var sorted := [A_TXT, B_TXT];
    var kept := [B_TXT, A_TXT];
    ExampleFilterAll();
    assert sorted == [kept[1], kept[0]];
  }

  /** Candidates "b.txt", "a.txt", "c.md" are listed as "a.txt", "b.txt". */
  lemma ExampleListing()
    ensures SerialFileList([B_TXT, A_TXT, C_MD]) == [A_TXT, B_TXT]
  {
    ExampleSorted();
    ExampleSameNames();
    QsortResultIsListing([B_TXT, A_TXT, C_MD], [A_TXT, B_TXT]);
  }
}

=== FILE: names.dfy ===
/** File names and the byte-wise `strcmp` order that `qsort` sorts them by. */
module Names {

  /** A directory entry name: the characters before its NUL terminator, so never NUL itself. */
  type Name = s: seq<char> | '\0' !in s

  /** The sign of `strcmp(a, b)`: characters are compared one by one, and a name that runs out
      first (reaches its terminator) is the smaller one. */
  function Compare(a: Name, b: Name): (r: int)
    ensures -1 <= r <= 1
    ensures r == 0 <==> a == b
    decreases |a|
  {
    if |a| == 0 then (if |b| == 0 then 0 else -1)
    else if |b| == 0 then 1
    else if a[0] < b[0] then -1
    else if b[0] < a[0] then 1
    else
      assert a == [a[0]] + a[1..] && b == [b[0]] + b[1..];
      Compare(a[1..], b[1..])
  }

  /** The textbook lexicographic order, stated without recursion: `a` is a proper prefix of `b`,
      or the two agree up to some position where `a` has the smaller character. */
  ghost predicate Precedes(a: Name, b: Name) {
    || (|a| < |b| && a == b[..|a|])
    || exists k :: 0 <= k < |a| && k < |b| && a[..k] == b[..k] && a[k] < b[k]
  }

  /** Putting the same character in front of two names keeps their order. */
  lemma PrecedesCons(c: char, a: Name, b: Name)
    requires c != '\0' && Precedes(a, b)
    ensures Precedes([c] + a, [c] + b)
  {
    var a1, b1 := [c] + a, [c] + b;
    if |a| < |b| && a == b[..|a|] {
      assert b1[..|a1|] == [c] + b[..|a|];
    } else {
      var k :| 0 <= k < |a| && k < |b| && a[..k] == b[..k] && a[k] < b[k];
      assert a1[..k + 1] == [c] + a[..k] && b1[..k + 1] == [c] + b[..k];
      assert a1[k + 1] == a[k] && b1[k + 1] == b[k];
    }
  }

  /** Dropping a shared first character keeps the order. */
  lemma PrecedesTail(a: Name, b: Name)
    requires |a| > 0 && |b| > 0 && a[0] == b[0] && Precedes(a, b)
    ensures Precedes(a[1..], b[1..])
  {
    var a', b' := a[1..], b[1..];
    if |a| < |b| && a == b[..|a|] {
      assert a' == b'[..|a'|];
    } else {
      var k :| 0 <= k < |a| && k < |b| && a[..k] == b[..k] && a[k] < b[k];
      assert k > 0;
      assert a'[..k - 1] == a[..k][1..] && b'[..k - 1] == b[..k][1..];
      assert a'[k - 1] == a[k] && b'[k - 1] == b[k];
    }
  }

  /** `strcmp` reports "less" exactly when the first name precedes the second. */
  lemma {:induction false} CompareIsLexicographic(a: Name, b: Name)
    ensures Compare(a, b) < 0 <==> Precedes(a, b)
    decreases |a|
  {
    if |a| == 0 {
      if |b| > 0 {
        assert a == b[..0];
      }
    } else if |b| > 0 && a[0] < b[0] {
      assert a[..0] == b[..0];
    } else if |b| > 0 && a[0] == b[0] {
      var a', b' := a[1..], b[1..];
      CompareIsLexicographic(a', b');
      assert a == [a[0]] + a' && b == [a[0]] + b';
      if Precedes(a', b') {
        PrecedesCons(a[0], a', b');
      }
      if Precedes(a, b) {
        PrecedesTail(a, b);
      }
    }
  }

  /** Swapping the arguments of `strcmp` flips the sign of its result. */
  lemma {:induction false} CompareAntisymmetric(a: Name, b: Name)
    ensures Compare(b, a) == -Compare(a, b)
    decreases |a|
  {
    if |a| > 0 && |b| > 0 && a[0] == b[0] {
      CompareAntisymmetric(a[1..], b[1..]);
    }
  }

  /** The order `strcmp` induces is transitive. */
  lemma {:induction false} CompareTransitive(a: Name, b: Name, c: Name)
    requires Compare(a, b) <= 0 && Compare(b, c) <= 0
    ensures Compare(a, c) <= 0
    decreases |a|
  {
    if |a| > 0 && |b| > 0 && |c| > 0 && a[0] == b[0] && b[0] == c[0] {
      CompareTransitive(a[1..], b[1..], c[1..]);
    }
  }
}

=== FILE: pipeline.dfy ===
/** The claim counter and the write-turn protocol of `compression_worker`, as a sequential
    transition system. Each step is one worker's critical section (or the local work between
    two of them); thread interleaving is an arbitrary sequence of enabled steps, and waiting on
    `write_cond` is a publish step that is not yet enabled. */
module Pipeline {
  import opened Wrappers
  import opened Bytes
  import opened FileJob
  import opened Archive

  /** Where one worker thread is in its loop. */
  datatype Phase =
    | Starting        // created; has not yet set up its zlib stream
    | Idle            // about to claim the next index
    | Busy(index: nat) // holds a claimed index below the file count: compressing or waiting for its turn
    | Exited          // claimed an index at or beyond the file count and left the loop
    | Abandoned       // `deflateInit` failed, so the thread returned before claiming anything

  /** The files of the run, each with what processing it yields; `|attempts|` is the file count. */
  datatype Config = Config(variant: Variant, attempts: seq<Attempt>)

  /** The shared fields of the context (`next_index`, `next_write_index`, `total_in`,
      `total_out`), the bytes passed to `fwrite` on the output file so far, and each worker's
      phase. */
  datatype State = State(
    nextIndex: nat,
    nextWriteIndex: nat,
    output: seq<byte>,
    totalIn: nat,
    totalOut: nat,
    workers: seq<Phase>)

  /** The shared state `compress_directory` sets up before it creates `workerCount` threads. */
  function Init(workerCount: nat): (s: State)
    ensures s.nextIndex == 0 && s.nextWriteIndex == 0 && s.output == []
    ensures s.totalIn == 0 && s.totalOut == 0
    ensures |s.workers| == workerCount && forall w :: 0 <= w < workerCount ==> s.workers[w] == Starting
  {
    State(0, 0, [], 0, 0, seq(workerCount, _ => Starting))
  }

  datatype Step =
    | SetupFail(worker: nat) // src/serial.c: `deflateInit` fails and the thread returns
    | Claim(worker: nat)     // take `next_index` under `index_lock`
    | Publish(worker: nat)   // write the record under `write_lock` once it is this index's turn
    | Skip(worker: nat)      // src/serial.c: drop a file that failed, without writing

  /** Whether worker `w` may take `step` now. A worker whose file failed under project2 has no
      enabled step at all: the assert stops it there. */
  ghost predicate Enabled(cfg: Config, s: State, step: Step) {
    var w := step.worker;
    && w < |s.workers|
    && match step
       case SetupFail(_) =>
         cfg.variant == Staged && s.workers[w] == Starting
       case Claim(_) =>
         s.workers[w] == Starting || s.workers[w] == Idle
       case Publish(_) =>
         && s.workers[w].Busy?
         && s.workers[w].index < |cfg.attempts|
         && cfg.attempts[s.workers[w].index].Ready?
         && s.workers[w].index == s.nextWriteIndex
       case Skip(_) =>
         && cfg.variant == Staged
         && s.workers[w].Busy?
         && s.workers[w].index < |cfg.attempts|
         && cfg.attempts[s.workers[w].index].Failed?
  }

  /** `int i = ctx->next_index++`: the claimant gets the current counter, the counter moves up by
      one, and the worker leaves its loop exactly when the index is at or past the file count. */
  function ClaimStep(cfg: Config, s: State, w: nat): (r: State)
    requires w < |s.workers|
    ensures r.nextIndex == s.nextIndex + 1
    ensures |r.workers| == |s.workers|
    ensures r.workers[w] == Exited <==> s.nextIndex >= |cfg.attempts|
    ensures r.workers[w] != Exited ==> r.workers[w] == Busy(s.nextIndex)
    ensures forall v :: 0 <= v < |s.workers| && v != w ==> r.workers[v] == s.workers[v]
    ensures r.nextWriteIndex == s.nextWriteIndex && r.output == s.output
    ensures r.totalIn == s.totalIn && r.totalOut == s.totalOut
  {
    var i := s.nextIndex;
    s.(nextIndex := i + 1, workers := s.workers[w := if i >= |cfg.attempts| then Exited else Busy(i)])
  }

  /** The write-lock critical section for the file whose turn it is: its record goes at the end
      of the output, its counts go into the totals, and the turn passes to the next index. */
  function PublishStep(cfg: Config, s: State, w: nat): (r: State)
    requires w < |s.workers|
    requires s.nextWriteIndex < |cfg.attempts| && cfg.attempts[s.nextWriteIndex].Ready?
    ensures r.nextWriteIndex == s.nextWriteIndex + 1
    ensures |r.output| >= |s.output|
    ensures r.output[..|s.output|] == s.output
    ensures r.output[|s.output|..] == Record(cfg.variant, cfg.attempts[s.nextWriteIndex].payload)
    ensures r.totalIn == s.totalIn + cfg.attempts[s.nextWriteIndex].inBytes
    ensures r.totalOut == s.totalOut + |cfg.attempts[s.nextWriteIndex].payload|
    ensures r.workers == s.workers[w := Idle] && r.nextIndex == s.nextIndex
  {
    var a := cfg.attempts[s.nextWriteIndex];
    s.(nextWriteIndex := s.nextWriteIndex + 1,
       output := s.output + Record(cfg.variant, a.payload),
       totalIn := s.totalIn + a.inBytes,
       totalOut := s.totalOut + |a.payload|,
       workers := s.workers[w := Idle])
  }

  /** `continue` after a failed file, and the early return after a failed `deflateInit`: only the
      worker's own phase changes; the turn, the totals and the output stay as they are. */
  function LeaveStep(s: State, w: nat, phase: Phase): (r: State)
    requires w < |s.workers|
    ensures r.nextWriteIndex == s.nextWriteIndex && r.output == s.output
    ensures r.totalIn == s.totalIn && r.totalOut == s.totalOut && r.nextIndex == s.nextIndex
    ensures r.workers == s.workers[w := phase]
  {
    s.(workers := s.workers[w := phase])
  }

  function Apply(cfg: Config, s: State, step: Step): State
    requires Enabled(cfg, s, step)
  {
    match step
    case SetupFail(w) => LeaveStep(s, w, Abandoned)
    case Claim(w) => ClaimStep(cfg, s, w)
    case Publish(w) => PublishStep(cfg, s, w)
    case Skip(w) => LeaveStep(s, w, Idle)
  }

  /** The state after taking `steps` in order from `s`, or `None` if some step is not enabled
      when its turn comes (so the sequence is not an interleaving the threads can produce). */
  ghost function Run(cfg: Config, s: State, steps: seq<Step>): Option<State>
    decreases |steps|
  {
    if |steps| == 0 then Some(s)
    else if !Enabled(cfg, s, steps[0]) then None
    else Run(cfg, Apply(cfg, s, steps[0]), steps[1..])
  }

  /** The indices handed out by the claim steps of `steps`, in the order they were handed out. */
  ghost function Claims(cfg: Config, s: State, steps: seq<Step>): seq<nat>
    decreases |steps|
  {
    if |steps| == 0 || !Enabled(cfg, s, steps[0]) then []
    else (if steps[0].Claim? then [s.nextIndex] else []) + Claims(cfg, Apply(cfg, s, steps[0]), steps[1..])
  }

  /** The files before the current turn: those already written. */
  function Written(cfg: Config, s: State): seq<Attempt>
    requires s.nextWriteIndex <= |cfg.attempts|
  {
    cfg.attempts[..s.nextWriteIndex]
  }

  /** The turn never runs ahead of the claims or past the last file; the output is the records
      of files 0 .. k-1 (k the turn) in index order with no gaps; the totals are their byte
      counts. */
  ghost predicate WrittenInOrder(cfg: Config, s: State) {
    && s.nextWriteIndex <= |cfg.attempts| && s.nextWriteIndex <= s.nextIndex
    && AllReady(Written(cfg, s))
    && s.output == Join(cfg.variant, Payloads(Written(cfg, s)))
    && s.totalIn == TotalIn(Written(cfg, s))
    && s.totalOut == TotalOut(Written(cfg, s))
  }

  /** A held index is claimed, in range and not yet written; no two workers hold the same one. */
  ghost predicate HoldersDistinct(cfg: Config, s: State) {
    && (forall w :: 0 <= w < |s.workers| && s.workers[w].Busy? ==>
          s.nextWriteIndex <= s.workers[w].index < |cfg.attempts| && s.workers[w].index < s.nextIndex)
    && (forall w, v ::
          (0 <= w < |s.workers| && 0 <= v < |s.workers| && w != v && s.workers[w].Busy? && s.workers[v].Busy?)
          ==> s.workers[w].index != s.workers[v].index)
  }

  /** A claimed, unwritten index is still held by its worker, or its file failed and was
      dropped; and a worker leaves its loop only once every index has been handed out. */
  ghost predicate ClaimsAccounted(cfg: Config, s: State) {
    && (forall j :: s.nextWriteIndex <= j < |cfg.attempts| && j < s.nextIndex ==>
          Busy(j) in s.workers || cfg.attempts[j].Failed?)
    && (Exited in s.workers ==> s.nextIndex > |cfg.attempts|)
  }

  /** What holds in every reachable state. */
  ghost predicate Inv(cfg: Config, s: State) {
    WrittenInOrder(cfg, s) && HoldersDistinct(cfg, s) && ClaimsAccounted(cfg, s)
  }

  lemma InitInv(cfg: Config, workerCount: nat)
    ensures Inv(cfg, Init(workerCount))
  {
    var s := Init(workerCount);
    assert Written(cfg, s) == [];
    assert Exited !in s.workers;
  }

  /** A worker that moves from a phase other than `Busy(j)` leaves `Busy(j)` where it was. */
  lemma HeldElsewhere(workers: seq<Phase>, w: nat, p: Phase, j: nat)
    requires w < |workers| && workers[w] != Busy(j)
    requires Busy(j) in workers
    ensures Busy(j) in workers[w := p]
  {
    var v :| 0 <= v < |workers| && workers[v] == Busy(j);
    assert workers[w := p][v] == Busy(j);
  }

  lemma ClaimPreservesInv(cfg: Config, s: State, w: nat)
    requires Inv(cfg, s) && Enabled(cfg, s, Claim(w))
    ensures Inv(cfg, ClaimStep(cfg, s, w))
  {
    var r := ClaimStep(cfg, s, w);
    var n := |cfg.attempts|;
    assert Written(cfg, r) == Written(cfg, s);
    forall j | r.nextWriteIndex <= j < n && j < r.nextIndex
      ensures Busy(j) in r.workers || cfg.attempts[j].Failed?
    {
      if j == s.nextIndex {
        assert r.workers[w] == Busy(j);
      } else if Busy(j) in s.workers {
        HeldElsewhere(s.workers, w, r.workers[w], j);
      }
    }
  }

  lemma PublishKeepsWrittenInOrder(cfg: Config, s: State, w: nat)
    requires WrittenInOrder(cfg, s) && Enabled(cfg, s, Publish(w))
    requires s.nextWriteIndex < s.nextIndex
    ensures WrittenInOrder(cfg, PublishStep(cfg, s, w))
  {
    var r := PublishStep(cfg, s, w);
    var a := cfg.attempts[s.nextWriteIndex];
    assert Written(cfg, r) == Written(cfg, s) + [a];
    AttemptsSnoc(Written(cfg, s), a);
    JoinSnoc(cfg.variant, Payloads(Written(cfg, s)), a.payload);
  }

  lemma PublishKeepsHoldersDistinct(cfg: Config, s: State, w: nat)
    requires HoldersDistinct(cfg, s) && Enabled(cfg, s, Publish(w))
    ensures HoldersDistinct(cfg, PublishStep(cfg, s, w))
  {
  }

  lemma PublishKeepsClaimsAccounted(cfg: Config, s: State, w: nat)
    requires ClaimsAccounted(cfg, s) && Enabled(cfg, s, Publish(w))
    ensures ClaimsAccounted(cfg, PublishStep(cfg, s, w))
  {
    var r := PublishStep(cfg, s, w);
    forall j | r.nextWriteIndex <= j < |cfg.attempts| && j < r.nextIndex
      ensures Busy(j) in r.workers || cfg.attempts[j].Failed?
    {
      if Busy(j) in s.workers {
        HeldElsewhere(s.workers, w, Idle, j);
      }
    }
    if Exited in r.workers {
      var v :| 0 <= v < |r.workers| && r.workers[v] == Exited;
      assert s.workers[v] == Exited;
    }
  }

  lemma PublishPreservesInv(cfg: Config, s: State, w: nat)
    requires Inv(cfg, s) && Enabled(cfg, s, Publish(w))
    ensures Inv(cfg, PublishStep(cfg, s, w))
  {
    PublishKeepsWrittenInOrder(cfg, s, w);
    PublishKeepsHoldersDistinct(cfg, s, w);
    PublishKeepsClaimsAccounted(cfg, s, w);
  }

  lemma LeavePreservesInv(cfg: Config, s: State, step: Step)
    requires Inv(cfg, s) && Enabled(cfg, s, step) && (step.SetupFail? || step.Skip?)
    ensures Inv(cfg, Apply(cfg, s, step))
  {
    var w := step.worker;
    var r := Apply(cfg, s, step);
    assert Written(cfg, r) == Written(cfg, s);
    forall j | r.nextWriteIndex <= j < |cfg.attempts| && j < r.nextIndex
      ensures Busy(j) in r.workers || cfg.attempts[j].Failed?
    {
      if Busy(j) in s.workers && s.workers[w] != Busy(j) {
        HeldElsewhere(s.workers, w, r.workers[w], j);
      }
    }
    if Exited in r.workers {
      var v :| 0 <= v < |r.workers| && r.workers[v] == Exited;
      assert s.workers[v] == Exited;
    }
  }

  /** Every enabled step keeps the invariant. */
  lemma StepPreservesInv(cfg: Config, s: State, step: Step)
    requires Inv(cfg, s) && Enabled(cfg, s, step)
    ensures Inv(cfg, Apply(cfg, s, step))
  {
    match step
    case Claim(w) => ClaimPreservesInv(cfg, s, w);
    case Publish(w) => PublishPreservesInv(cfg, s, w);
    case SetupFail(_) => LeavePreservesInv(cfg, s, step);
    case Skip(_) => LeavePreservesInv(cfg, s, step);
  }

  lemma {:induction false} RunPreservesInv(cfg: Config, s: State, steps: seq<Step>)
    requires Inv(cfg, s)
    requires Run(cfg, s, steps).Some?
    ensures Inv(cfg, Run(cfg, s, steps).value)
    decreases |steps|
  {
    if |steps| > 0 {
      StepPreservesInv(cfg, s, steps[0]);
      RunPreservesInv(cfg, Apply(cfg, s, steps[0]), steps[1..]);
    }
  }

  /** Every state a run reaches from the start satisfies the invariant. */
  lemma Reachable(cfg: Config, workerCount: nat, steps: seq<Step>)
    requires Run(cfg, Init(workerCount), steps).Some?
    ensures Inv(cfg, Run(cfg, Init(workerCount), steps).value)
  {
    InitInv(cfg, workerCount);
    RunPreservesInv(cfg, Init(workerCount), steps);
  }

  /** A thread that has made its first claim never goes back to `Starting` or `Abandoned`. */
  predicate PastSetup(p: Phase) {
    p.Idle? || p.Busy? || p.Exited?
  }

  /** Once an index has been handed out, some thread is past its setup; and only the staged
      program has a setup failure. */
  ghost predicate SetupAccounted(cfg: Config, s: State) {
    && (s.nextIndex > 0 ==> exists w :: 0 <= w < |s.workers| && PastSetup(s.workers[w]))
    && (Abandoned in s.workers ==> cfg.variant == Staged)
  }

  lemma StepKeepsSetupAccounted(cfg: Config, s: State, step: Step)
    requires SetupAccounted(cfg, s) && Enabled(cfg, s, step)
    ensures SetupAccounted(cfg, Apply(cfg, s, step))
  {
    var w := step.worker;
    var r := Apply(cfg, s, step);
    if r.nextIndex > 0 {
      if step.Claim? {
        assert PastSetup(r.workers[w]);
      } else {
        var v :| 0 <= v < |s.workers| && PastSetup(s.workers[v]);
        assert PastSetup(r.workers[v]);
      }
    }
    if Abandoned in r.workers {
      var v :| 0 <= v < |r.workers| && r.workers[v] == Abandoned;
      if v != w {
        assert s.workers[v] == Abandoned;
      }
    }
  }

  /** Steps change worker phases, never the number of workers. */
  lemma {:induction false} RunKeepsWorkers(cfg: Config, s: State, steps: seq<Step>)
    requires Run(cfg, s, steps).Some?
    ensures |Run(cfg, s, steps).value.workers| == |s.workers|
    decreases |steps|
  {
    if |steps| > 0 {
      RunKeepsWorkers(cfg, Apply(cfg, s, steps[0]), steps[1..]);
    }
  }

  lemma {:induction false} RunKeepsSetupAccounted(cfg: Config, s: State, steps: seq<Step>)
    requires SetupAccounted(cfg, s)
    requires Run(cfg, s, steps).Some?
    ensures SetupAccounted(cfg, Run(cfg, s, steps).value)
    decreases |steps|
  {
    if |steps| > 0 {
      StepKeepsSetupAccounted(cfg, s, steps[0]);
      RunKeepsSetupAccounted(cfg, Apply(cfg, s, steps[0]), steps[1..]);
    }
  }

  /** The other way a run can end: every thread returned and none through `break`. Then every
      thread failed its setup before claiming, nothing was claimed or written, both totals are
      0, and, unless no thread was started, the run is the staged program's. */
  lemma ReturnedWithoutBreak(cfg: Config, workerCount: nat, steps: seq<Step>)
    requires Run(cfg, Init(workerCount), steps).Some?
    requires var t := Run(cfg, Init(workerCount), steps).value;
      Returned(t) && Exited !in t.workers
    ensures var t := Run(cfg, Init(workerCount), steps).value;
      && t.nextIndex == 0 && t.nextWriteIndex == 0
      && t.output == [] && t.totalIn == 0 && t.totalOut == 0
      && (workerCount > 0 ==> cfg.variant == Staged)
  {
    var t := Run(cfg, Init(workerCount), steps).value;
    Reachable(cfg, workerCount, steps);
    assert Abandoned !in Init(workerCount).workers;
    RunKeepsSetupAccounted(cfg, Init(workerCount), steps);
    RunKeepsWorkers(cfg, Init(workerCount), steps);
    assert Written(cfg, t) == [];
    if workerCount > 0 {
      assert t.workers[0] == Abandoned;
    }
  }

  /** Whichever way `workerCount` threads interleave, the output holds the records of files
      0, 1, ..., k-1 in that order and nothing else, where k is the write turn; each of those
      files was processed successfully, and the totals are the sums of their byte counts. */
  lemma OrderedOutput(cfg: Config, workerCount: nat, steps: seq<Step>)
    requires Run(cfg, Init(workerCount), steps).Some?
    ensures var t := Run(cfg, Init(workerCount), steps).value;
      && t.nextWriteIndex <= |cfg.attempts|
      && (forall i :: 0 <= i < t.nextWriteIndex ==> cfg.attempts[i].Ready?)
      && t.output == Join(cfg.variant, Payloads(cfg.attempts[..t.nextWriteIndex]))
      && t.totalIn == TotalIn(cfg.attempts[..t.nextWriteIndex])
      && t.totalOut == TotalOut(cfg.attempts[..t.nextWriteIndex])
  {
    var t := Run(cfg, Init(workerCount), steps).value;
    Reachable(cfg, workerCount, steps);
    assert WrittenInOrder(cfg, t);
    forall i | 0 <= i < t.nextWriteIndex
      ensures cfg.attempts[i].Ready?
    {
      assert Written(cfg, t)[i] == cfg.attempts[i];
    }
  }

  /** The turn never moves past a file that failed: the skip path leaves it waiting there. */
  lemma FailedIndexNeverPassed(cfg: Config, workerCount: nat, steps: seq<Step>, j: nat)
    requires Run(cfg, Init(workerCount), steps).Some?
    requires j < |cfg.attempts| && cfg.attempts[j].Failed?
    ensures Run(cfg, Init(workerCount), steps).value.nextWriteIndex <= j
  {
    OrderedOutput(cfg, workerCount, steps);
  }

  /** Consequently a worker holding an index beyond a failed file can never publish: it waits
      on `write_cond` forever. */
  lemma BlockedBehindFailure(cfg: Config, workerCount: nat, steps: seq<Step>, j: nat, w: nat)
    requires Run(cfg, Init(workerCount), steps).Some?
    requires j < |cfg.attempts| && cfg.attempts[j].Failed?
    requires var t := Run(cfg, Init(workerCount), steps).value;
      w < |t.workers| && t.workers[w].Busy? && t.workers[w].index > j
    ensures !Enabled(cfg, Run(cfg, Init(workerCount), steps).value, Publish(w))
  {
    FailedIndexNeverPassed(cfg, workerCount, steps, j);
  }

  /** The claims of a run hand out `next_index`, `next_index + 1`, ... with no repeats and no
      gaps. */
  lemma {:induction false} ClaimsConsecutive(cfg: Config, s: State, steps: seq<Step>)
    requires Run(cfg, s, steps).Some?
    ensures var t := Run(cfg, s, steps).value;
      && |Claims(cfg, s, steps)| == t.nextIndex - s.nextIndex
      && forall m :: 0 <= m < |Claims(cfg, s, steps)| ==> Claims(cfg, s, steps)[m] == s.nextIndex + m
    decreases |steps|
  {
    if |steps| > 0 {
      var s' := Apply(cfg, s, steps[0]);
      ClaimsConsecutive(cfg, s', steps[1..]);
      assert s'.nextIndex == s.nextIndex + if steps[0].Claim? then 1 else 0;
    }
  }

  /** From the start of a run, claim number m returns index m; so each index below the file
      count is handed to at most one worker, and to exactly one once the counter has passed the
      file count. */
  lemma EachIndexClaimedOnce(cfg: Config, workerCount: nat, steps: seq<Step>)
    requires Run(cfg, Init(workerCount), steps).Some?
    ensures var claims := Claims(cfg, Init(workerCount), steps);
      && |claims| == Run(cfg, Init(workerCount), steps).value.nextIndex
      && forall m :: 0 <= m < |claims| ==> claims[m] == m
  {
    ClaimsConsecutive(cfg, Init(workerCount), steps);
  }

  /** The index of the first file that failed, or the file count when none did. */
  function FirstFailure(attempts: seq<Attempt>): (r: nat)
    ensures r <= |attempts|
    ensures forall i :: 0 <= i < r ==> attempts[i].Ready?
    ensures r < |attempts| ==> attempts[r].Failed?
  {
    if |attempts| == 0 then 0
    else if attempts[0].Failed? then 0
    else 1 + FirstFailure(attempts[1..])
  }

  /** The first failure is the one index with only successes before it and a failure (or the
      end) at it. */
  lemma FirstFailureUnique(attempts: seq<Attempt>, k: nat)
    requires k <= |attempts|
    requires forall i :: 0 <= i < k ==> attempts[i].Ready?
    requires k < |attempts| ==> attempts[k].Failed?
    ensures FirstFailure(attempts) == k
  {
  }

  /** Every thread has returned: through the loop's `break`, or early because its setup failed.
      This is when the joins of `compress_directory` are all done. */
  ghost predicate Returned(s: State) {
    forall w :: 0 <= w < |s.workers| ==> s.workers[w] == Exited || s.workers[w] == Abandoned
  }

  /** Every thread has returned, at least one of them through the loop's `break`. */
  ghost predicate Finished(s: State) {
    Exited in s.workers && Returned(s)
  }

  lemma NothingHeldWhenFinished(s: State, j: nat)
    requires Finished(s)
    ensures Busy(j) !in s.workers
  {
  }

  /** When all threads have returned, every file from the write turn on failed, so the turn
      stands at the first failure. The requirements are the parts of `Inv` this needs. */
  lemma FinishedInv(cfg: Config, s: State)
    requires Finished(s)
    requires s.nextWriteIndex <= |cfg.attempts| < s.nextIndex
    requires forall i :: 0 <= i < s.nextWriteIndex ==> cfg.attempts[i].Ready?
    requires forall j :: s.nextWriteIndex <= j < |cfg.attempts| && j < s.nextIndex ==>
               Busy(j) in s.workers || cfg.attempts[j].Failed?
    ensures forall j :: s.nextWriteIndex <= j < |cfg.attempts| ==> cfg.attempts[j].Failed?
    ensures s.nextWriteIndex == FirstFailure(cfg.attempts)
  {
    forall j | s.nextWriteIndex <= j < |cfg.attempts|
      ensures cfg.attempts[j].Failed?
    {
      NothingHeldWhenFinished(s, j);
    }
    FirstFailureUnique(cfg.attempts, s.nextWriteIndex);
  }

  /** Where the turn stands once all threads have returned: at the first failure, with only
      failures from there to the end of the list. */
  lemma FinishedTurn(cfg: Config, workerCount: nat, steps: seq<Step>)
    requires Run(cfg, Init(workerCount), steps).Some?
    requires Finished(Run(cfg, Init(workerCount), steps).value)
    ensures var t := Run(cfg, Init(workerCount), steps).value;
      && t.nextWriteIndex == FirstFailure(cfg.attempts)
      && forall j :: t.nextWriteIndex <= j < |cfg.attempts| ==> cfg.attempts[j].Failed?
  {
    var t := Run(cfg, Init(workerCount), steps).value;
    Reachable(cfg, workerCount, steps);
    assert AllReady(Written(cfg, t)) && ClaimsAccounted(cfg, t);
    forall i | 0 <= i < t.nextWriteIndex
      ensures cfg.attempts[i].Ready?
    {
      assert Written(cfg, t)[i] == cfg.attempts[i];
    }
    FinishedInv(cfg, t);
  }

  /** A finished run has written exactly the files before the first failure, whatever the
      number of workers and however they interleaved. */
  lemma FinishedOutput(cfg: Config, workerCount: nat, steps: seq<Step>)
    requires Run(cfg, Init(workerCount), steps).Some?
    requires Finished(Run(cfg, Init(workerCount), steps).value)
    ensures var t := Run(cfg, Init(workerCount), steps).value;
      var k := FirstFailure(cfg.attempts);
      && t.nextWriteIndex == k
      && t.output == Join(cfg.variant, Payloads(cfg.attempts[..k]))
      && t.totalIn == TotalIn(cfg.attempts[..k])
      && t.totalOut == TotalOut(cfg.attempts[..k])
  {
    FinishedTurn(cfg, workerCount, steps);
    OrderedOutput(cfg, workerCount, steps);
  }

  /** Runs with any two worker counts and any two interleavings that both finish leave
      byte-identical archives and equal totals. */
  lemma ScheduleIndependent(cfg: Config, count1: nat, steps1: seq<Step>, count2: nat, steps2: seq<Step>)
    requires Run(cfg, Init(count1), steps1).Some? && Finished(Run(cfg, Init(count1), steps1).value)
    requires Run(cfg, Init(count2), steps2).Some? && Finished(Run(cfg, Init(count2), steps2).value)
    ensures Run(cfg, Init(count1), steps1).value.output == Run(cfg, Init(count2), steps2).value.output
    ensures Run(cfg, Init(count1), steps1).value.totalIn == Run(cfg, Init(count2), steps2).value.totalIn
    ensures Run(cfg, Init(count1), steps1).value.totalOut == Run(cfg, Init(count2), steps2).value.totalOut
  {
    FinishedOutput(cfg, count1, steps1);
    FinishedOutput(cfg, count2, steps2);
  }

  /** The price of the silent skip: a run can only finish if no successful file comes after a
      failed one. A single unreadable file followed by a readable one leaves the run hung. */
  lemma FinishOnlyIfFailuresTrail(cfg: Config, workerCount: nat, steps: seq<Step>, j: nat, m: nat)
    requires Run(cfg, Init(workerCount), steps).Some?
    requires Finished(Run(cfg, Init(workerCount), steps).value)
    requires j < m < |cfg.attempts| && cfg.attempts[j].Failed?
    ensures cfg.attempts[m].Failed?
  {
    FinishedTurn(cfg, workerCount, steps);
    assert FirstFailure(cfg.attempts) <= j;
  }

  /** `total_out` counts exactly the payload bytes in the archive: all of it in the staged
      layout, everything but the 4-byte prefixes in the buffered one. */
  lemma OutputLengthMatchesTotals(cfg: Config, workerCount: nat, steps: seq<Step>)
    requires Run(cfg, Init(workerCount), steps).Some?
    ensures var t := Run(cfg, Init(workerCount), steps).value;
      |t.output| == t.totalOut + if cfg.variant == Buffered then 4 * t.nextWriteIndex else 0
  {
    OrderedOutput(cfg, workerCount, steps);
    var t := Run(cfg, Init(workerCount), steps).value;
    JoinLength(cfg.variant, Payloads(cfg.attempts[..t.nextWriteIndex]));
  }

  /** In the buffered layout the archive always reads back as the compressed payloads of files
      0 .. k-1, record i holding file i's payload, and every length prefix read equals the
      payload length counted in `total_out`. */
  lemma BufferedArchiveParses(cfg: Config, workerCount: nat, steps: seq<Step>)
    requires cfg.variant == Buffered
    requires forall i :: 0 <= i < |cfg.attempts| && cfg.attempts[i].Ready? ==> |cfg.attempts[i].payload| <= BUFFER_SIZE
    requires Run(cfg, Init(workerCount), steps).Some?
    ensures var t := Run(cfg, Init(workerCount), steps).value;
      && t.nextWriteIndex <= |cfg.attempts|
      && (forall i :: 0 <= i < t.nextWriteIndex ==> cfg.attempts[i].Ready?)
      && Parse(t.output).Some?
      && |Parse(t.output).value| == t.nextWriteIndex
      && (forall i :: 0 <= i < t.nextWriteIndex ==> Parse(t.output).value[i] == cfg.attempts[i].payload)
      && t.totalOut == SumLengths(Parse(t.output).value)
  {
    OrderedOutput(cfg, workerCount, steps);
    var t := Run(cfg, Init(workerCount), steps).value;
    ParseJoin(Payloads(cfg.attempts[..t.nextWriteIndex]));
  }

  /** With no candidate files nothing is ever written. */
  lemma NoFilesNoRecords(cfg: Config, workerCount: nat, steps: seq<Step>)
    requires |cfg.attempts| == 0
    requires Run(cfg, Init(workerCount), steps).Some?
    ensures var t := Run(cfg, Init(workerCount), steps).value;
      t.output == [] && t.totalIn == 0 && t.totalOut == 0
  {
    OrderedOutput(cfg, workerCount, steps);
  }
}

=== FILE: sorting.dfy ===
/** Sorting names into ascending `strcmp` order, the job `qsort(files, n, sizeof(char *), cmp)` does. */
module Sorting {
  import opened Names

  /** Every earlier name compares less than or equal to every later one. */
  ghost predicate Sorted(s: seq<Name>) {
    forall i, j :: 0 <= i < j < |s| ==> Compare(s[i], s[j]) <= 0
  }

  /** A name that is at most every element of a sorted sequence may be put in front of it. */
  lemma ConsSorted(x: Name, s: seq<Name>)
    requires Sorted(s)
    requires forall y :: y in s ==> Compare(x, y) <= 0
    ensures Sorted([x] + s)
  {
    var r := [x] + s;
    forall i, j | 0 <= i < j < |r|
      ensures Compare(r[i], r[j]) <= 0
    {
      if i > 0 {
        assert r[i] == s[i - 1] && r[j] == s[j - 1];
      } else {
        assert r[j] in s;
      }
    }
  }

  /** A name at most the head of a sorted sequence may be put in front of it. */
  lemma PrependLeast(x: Name, s: seq<Name>)
    requires Sorted(s) && |s| > 0 && Compare(x, s[0]) <= 0
    ensures Sorted([x] + s)
  {
    forall y | y in s
      ensures Compare(x, y) <= 0
    {
      HeadIsLeast(s, y);
      CompareTransitive(x, s[0], y);
    }
    ConsSorted(x, s);
  }

  /** The head of a sorted sequence may go in front of its tail with a larger name inserted. */
  lemma PrependHead(x: Name, s: seq<Name>, t: seq<Name>)
    requires Sorted(s) && |s| > 0 && Compare(x, s[0]) > 0
    requires Sorted(t) && multiset(t) == multiset(s[1..]) + multiset{x}
    ensures Sorted([s[0]] + t)
  {
    forall y | y in t
      ensures Compare(s[0], y) <= 0
    {
      assert y in multiset(t);
      if y == x {
        CompareAntisymmetric(x, s[0]);
      } else {
        assert y in multiset(s[1..]);
        assert y in s[1..];
        var j :| 0 <= j < |s| - 1 && s[1..][j] == y;
        assert s[j + 1] == y;
      }
    }
    ConsSorted(s[0], t);
  }

  lemma TailSorted(s: seq<Name>)
    requires Sorted(s) && |s| > 0
    ensures Sorted(s[1..])
  {
    var t := s[1..];
    forall i, j | 0 <= i < j < |t|
      ensures Compare(t[i], t[j]) <= 0
    {
      assert t[i] == s[i + 1] && t[j] == s[j + 1];
    }
  }

  /** Places `x` before the first element it does not exceed. */
  function Insert(x: Name, s: seq<Name>): (r: seq<Name>)
    requires Sorted(s)
    ensures Sorted(r)
    ensures multiset(r) == multiset(s) + multiset{x}
  {
    if |s| == 0 then [x]
    else if Compare(x, s[0]) <= 0 then
      PrependLeast(x, s);
      [x] + s
    else
      assert s == [s[0]] + s[1..];
      TailSorted(s);
      var t := Insert(x, s[1..]);
      PrependHead(x, s, t);
      [s[0]] + t
  }

  /** Insertion sort: the ascending arrangement of the same names. */
  function Sort(s: seq<Name>): (r: seq<Name>)
    ensures Sorted(r)
    ensures multiset(r) == multiset(s)
  {
    if |s| == 0 then []
    else
      assert s == [s[0]] + s[1..];
      Insert(s[0], Sort(s[1..]))
  }

  /** A sequence that is sorted is its own sort; in particular sorting zero or one name changes
      nothing, which is why the program may skip `qsort` for fewer than two names. */
  lemma SortedIsFixed(s: seq<Name>)
    requires Sorted(s)
    ensures Sort(s) == s
  {
    SortedUnique(Sort(s), s);
  }

  /** The first element of a sorted sequence is at most every element of it. */
  lemma HeadIsLeast(s: seq<Name>, y: Name)
    requires Sorted(s) && y in s
    ensures Compare(s[0], y) <= 0
  {
    var i :| 0 <= i < |s| && s[i] == y;
    if i == 0 {
      assert Compare(y, y) == 0;
    }
  }

  /** Removing equal first elements from sequences with equal multisets leaves equal multisets. */
  lemma TailsSameMultiset(a: seq<Name>, b: seq<Name>)
    requires |a| > 0 && |b| > 0 && a[0] == b[0]
    requires multiset(a) == multiset(b)
    ensures multiset(a[1..]) == multiset(b[1..])
  {
    assert a == [a[0]] + a[1..];
    assert b == [b[0]] + b[1..];
    calc {
      multiset(a[1..]);
      multiset(a) - multiset{a[0]};
      multiset(b) - multiset{b[0]};
      multiset(b[1..]);
    }
  }

  /** Because `strcmp` only reports equality for identical names, there is exactly one sorted
      arrangement of a multiset of names: whatever order `qsort` (which is not stable) chooses,
      the result is the same sequence. */
  lemma {:induction false} SortedUnique(a: seq<Name>, b: seq<Name>)
    requires Sorted(a) && Sorted(b)
    requires multiset(a) == multiset(b)
    ensures a == b
    decreases |a|
  {
    if |a| == 0 {
      assert |multiset(b)| == 0;
    } else {
      assert |b| == |multiset(b)| == |multiset(a)| == |a|;
      assert a[0] in multiset(b) && b[0] in multiset(a);
      HeadIsLeast(b, a[0]);
      HeadIsLeast(a, b[0]);
      CompareAntisymmetric(a[0], b[0]);
      TailsSameMultiset(a, b);
      SortedUnique(a[1..], b[1..]);
      assert a == [a[0]] + a[1..] && b == [b[0]] + b[1..];
    }
  }
}

=== FILE: workercount.dfy ===
/** How many worker threads a run uses. */
module WorkerCount {
  import opened Wrappers
  import opened Context

  /** The cap `MAX_WORKER_THREADS` on worker threads. project2/src/serial.c defines it as 19;
      src/serial.c uses it without defining it, and the same value is taken for both. */
  const MAX_WORKER_THREADS: nat := 19

  /** `spawn_workers(ctx, worker_count)`: the number of threads it creates. None without a
      context or files; otherwise the request (or the file count when the request is not
      positive), clamped to the file count and then to the cap. */
  function SpawnWorkerCount(ctx: Option<Ctx>, workerCount: int): (r: nat)
    ensures ctx.None? || ctx.value.fileCount <= 0 ==> r == 0
    ensures ctx.Some? && ctx.value.fileCount > 0 ==>
      var wanted := if workerCount > 0 then workerCount else ctx.value.fileCount;
      && 1 <= r
      && r <= wanted && r <= ctx.value.fileCount && r <= MAX_WORKER_THREADS
      && (r == wanted || r == ctx.value.fileCount || r == MAX_WORKER_THREADS)
  {
    if ctx.None? || ctx.value.fileCount <= 0 then 0
    else
      var n := ctx.value.fileCount;
      var count := if workerCount <= 0 then n else workerCount;
      var count := if count > n then n else count;
      var count := if count > MAX_WORKER_THREADS then MAX_WORKER_THREADS else count;
      count
  }

  /** The worker count `compress_directory` uses (both programs): the smaller of the file count
      and the cap, never zero; no workers at all when there are no files. */
  function DirectoryWorkerCount(nfiles: int): (r: int)
    ensures nfiles <= 0 ==> r == 0
    ensures nfiles > 0 ==> 1 <= r && r <= nfiles && r <= MAX_WORKER_THREADS && (r == nfiles || r == MAX_WORKER_THREADS)
  {
    if nfiles > 0 then
      var count := if nfiles < MAX_WORKER_THREADS then nfiles else MAX_WORKER_THREADS;
      if count == 0 then 1 else count
    else 0
  }

  /** `compress_directory` picks the count `spawn_workers` picks for an unspecified request. */
  lemma DirectoryCountIsDefaultSpawnCount(ctx: Ctx)
    ensures DirectoryWorkerCount(ctx.fileCount) == SpawnWorkerCount(Some(ctx), 0)
  {
  }
}

=== FILE: wrappers.dfy ===
/** The optional value used for C pointers that may be NULL and for operations that can fail. */
module Wrappers {

  datatype Option<+T> = None | Some(value: T)
}
